=== FILE: README.md ===
# tereby command line: task selection, top-level dispatch and installation resolution

This project models the decision logic of the tereby task runner's command-line entry point, and proves properties of it.

- **Task selection** (`selectTasks`). The names given on the command line become tasks of the loaded Terebyfile. No names means the default task. A missing default, or an unknown name, is a user error with a fixed message. The unknown-name message may end with a "did you mean" suggestion: the first exported name at minimal Levenshtein distance, offered only when that distance is below 0.4 × the requested name's length.
- **Top-level dispatch** (`mainWorker` and `main`). The order of steps is:
  1. help;
  2. locating the Terebyfile;
  3. re-exec;
  4. version;
  5. change of directory and loading;
  6. task listing;
  7. selection, then the run, then the completion line.

  `main` turns what is thrown into one error line and exit code 1. The line is "Error: " followed by the message for a user error, the stack for a native error that has one, and the string form otherwise. A value with no string form (a symbol, an object without a prototype) makes building the line throw. That error escapes `main` before any error line or exit code is written.
- **Installation resolution** (`reexec`). Starting at the Terebyfile's directory, each ancestor is probed:
  - first for `node_modules/tereby/dist/cli.js`;
  - then for a `package.json` whose name is exactly `tereby`, which resolves to `dist/cli.js` in that directory.

  The nearest hit wins. No hit is the error "Unable to find tereby; …". A hit with the same real path as the running CLI means carry on in this process. Any other hit means hand off to that CLI and stop.

Everything is a pure function over immutable data:
- The host (command line, file system, loader, runner, clock) is a `Host` record of values and oracle functions.
- What the program does is a list of `Effect`s: log lines, error lines, exit code, change of directory, hand-off import, run.
- Paths are lists of segments below the root.

Modules: `Results` (Option/Result), `Paths`, `Errors` (thrown values), `Levenshtein`, `Terebyfile`, `Selection`, `Installation` (re-exec), `Cli` (main), plus `SelectionScenarios` and `ReexecScenarios`. The last two restate the repository's test cases as lemmas.

## Model

| member | source | states |
|---|---|---|
| `Paths.Resolve` | src/cli/index.ts:38 | an absolute argument is taken as is; a relative one is appended to the current directory |
| `Cli.TerebyfilePath` | src/cli/index.ts:38 | a path given on the command line is resolved against the current directory, and the lookup is not consulted. Otherwise the lookup's result is resolved, and its failure is passed on |
| `Cli.GivenPathSkipsLookup` | src/cli/index.ts:38 | with a path on the command line, what the lookup would give cannot change the Terebyfile path |
| `Paths.Dirname` | src/cli/reexec.ts:31 | the parent drops exactly the last segment; the root is its own parent |
| `Paths.Ancestors` | src/cli/reexec.ts:31 | the walk visits one directory per level: it starts at the given directory and ends at the root |
| `Paths.AncestorsShift` | src/cli/reexec.ts:31 | past its first entry, the walk from a directory is the walk from its parent |
| `Paths.AncestorsArePrefixes` | src/cli/reexec.ts:31 | the i-th directory of the walk is the start directory with its last i segments dropped |
| `Levenshtein.ComputeDistance` | src/cli/index.ts:102 | a row-by-row table computation returns exactly the recursively defined distance. This checks the definition of the distance `distance` returns; it is not the library's algorithm |
| `Levenshtein.DistanceZeroIffEqual` | src/cli/index.ts:102 | distance 0 holds exactly for equal names, so a name that is not exported is at least 1 away from every key |
| `Levenshtein.DistanceToSelf` | src/cli/index.ts:102 | every name is at distance 0 from itself |
| `Levenshtein.DistanceZeroOnlyIfEqual` | src/cli/index.ts:102 | distance 0 implies the two names are equal |
| `Levenshtein.DistanceAtLeastLengthGap` | src/cli/index.ts:102 | the distance is at least the difference of the two lengths |
| `Levenshtein.DistanceOneMismatch` | src/cli/index.ts:102 | equally long names that differ in at most one position are at distance at most 1 |
| `Levenshtein.ClosestIndex` | src/cli/index.ts:101 | `closest` picks a candidate of minimal distance, and the first one in key order among equals |
| `Terebyfile.Terebyfile.Values` | src/cli/index.ts:52 | the listing handed to the task formatter has one entry per exported name, in key order. Every task of the map is in it, and no name appears twice |
| `Selection.NoDefaultMessage` | src/cli/index.ts:88 | the message is "No default task has been exported from ", then the displayed Terebyfile path, then "; please specify a task name." |
| `Selection.UnknownTaskMessage` | src/cli/index.ts:97-103 | the message is `Task "`, the name, `" does not exist or is not exported from `, the displayed path and a full stop. With a suggestion, ` Did you mean "` follows, then the candidate and `"?` |
| `Selection.SuggestionOnlyAppends` | src/cli/index.ts:97-103 | the message with a suggestion starts with the plain message |
| `Selection.CloseEnough` | src/cli/index.ts:102 | the integer test holds exactly when the distance is below 0.4 times the name's length in exact arithmetic. Nothing is close to the empty name, and names of at most two characters admit only distance 0 |
| `Selection.Suggestion` | src/cli/index.ts:99-104 | a suggestion is made if and only if some exported name is within the threshold (5·d < 2·length). Any suggestion is an exported name of minimal distance, the first such in key order |
| `Selection.LookUpAll` | src/cli/index.ts:92-111 | success if and only if every name is a key. On success the result has one task per name, in order (`r[i] == tasks[names[i]]`). Otherwise the lookup stops with the first unknown name as its error |
| `Selection.SelectTasks` | src/cli/index.ts:79-112 | no names gives `[defaultTask]`, or the no-default message naming the simplified path. Otherwise it succeeds if and only if every name is a key, with `r[i] == tasks[names[i]]`. On failure the error is the unknown-task message, with its suggestion, for the first unknown name |
| `Selection.SelectedNamesAreRequested` | src/cli/index.ts:92-111 | the selected tasks carry the requested names, in the requested order |
| `Selection.SuggestionIsExported` | src/cli/index.ts:101 | a suggested candidate is always a key of the task map |
| `SelectionScenarios.SelectsDefault` | src/__tests__/cli/index.test.ts:40-47 | no names selects the default task `runSomeProgram` |
| `SelectionScenarios.SelectsInOrder` | src/__tests__/cli/index.test.ts:26-38 | two known names select their two tasks in the order given |
| `SelectionScenarios.SuggestsNothing` | src/__tests__/cli/index.test.ts:49-57 | no exported name is close enough to `oops` to be suggested |
| `SelectionScenarios.SuggestsBuildCompiler` | src/__tests__/cli/index.test.ts:59-71 | the suggestion for `buildcompiler` is `buildCompiler`, one substitution away |
| `SelectionScenarios.UnknownWithoutSuggestion` | src/__tests__/cli/index.test.ts:49-57 | `oops` is rejected with the plain not-found message |
| `SelectionScenarios.UnknownWithSuggestion` | src/__tests__/cli/index.test.ts:59-71 | `buildcompiler` is rejected with the suggestion `buildCompiler` |
| `SelectionScenarios.NoDefaultTask` | src/__tests__/cli/index.test.ts:73-81 | no names and no default task gives the no-default message |
| `Installation.ProbeDir` | src/cli/reexec.ts:31-50 | an existing `node_modules/tereby/dist/cli.js` wins. Otherwise a manifest named exactly `tereby` yields `dir/dist/cli.js`, whether or not that file exists. An unreadable manifest throws. Anything else misses |
| `Installation.FindUp` | src/cli/reexec.ts:31 | the starting directory is probed first, and its hit or failure is the result. A miss means the root was probed too and missed. Anything found is a `cli.js` entry point |
| `Installation.FindUpIsNearestHit` | src/cli/reexec.ts:31 | the search result is the probe of the nearest ancestor that does not miss. It misses only when every ancestor up to the root misses |
| `Installation.NearestHitWins` | src/cli/reexec.ts:31 | directories above the nearest hit are never consulted: file systems that agree up to that hit give the same result |
| `Installation.Reexec` | src/cli/reexec.ts:52-63 | the search starts at the Terebyfile's directory. No hit gives exactly "Unable to find tereby; ensure tereby is installed in your package.". A real path that fails to resolve is thrown, this CLI's own first and then the found one's. Success means a hit whose real paths both resolved; the result is in-process if and only if the two real paths are equal, and otherwise a hand-off to the found CLI |
| `ReexecScenarios.NotInstalled` | src/__tests__/cli.test.ts:24-33 | a package with no installation anywhere above it fails with the not-found error |
| `ReexecScenarios.InstalledInNodeModules` | src/__tests__/cli.test.ts:35-61 | a copy in the package's node_modules, next to a manifest of another name, receives the hand-off |
| `ReexecScenarios.SelfResolvedAbove` | src/__tests__/cli.test.ts:64-109 | inside a dependency of a tereby checkout, the walk passes a foreign manifest and a directory without one, and self-resolves at the checkout |
| `Cli.Worker` | src/cli/index.ts:30-76 | (`Orderly`) apart from the runner's own reporting, which is not modelled, the worker writes no error line. It sets exit code 1, and only 1, exactly when the runner reported failure. Nothing runs once something is thrown |
| `Cli.Proceed` | src/cli/index.ts:42-75 | the stages after re-exec keep the worker's guarantees: no error line of their own, exit code set only to 1 and exactly when the run failed, and no run once something is thrown |
| `Cli.PrependQuiet` | src/cli/index.ts:47 | a change of directory placed before the later stages changes neither whether an exit code is set nor whether a run failed. The stages with it in front keep the worker's guarantees |
| `Cli.InTerebyfileDir` | src/cli/index.ts:49-75 | loading, the task listing, selection and the run keep the same guarantees as the whole worker |
| `Cli.RunSelected` | src/cli/index.ts:56-75 | the run stage throws nothing. Apart from the runner's own reporting, which is not modelled, it writes no error line. It starts the runner on exactly the selected tasks. It sets exit code 1, and only 1, if and only if the runner reported failure |
| `Cli.JoinNames` | src/cli/index.ts:57 | no tasks give the empty string, and one task gives its name. A longer list starts with the first task's name |
| `Cli.JoinNamesAppend` | src/cli/index.ts:57 | joining two non-empty lists gives the two joins with ", " between them |
| `Cli.UsingLine` | src/cli/index.ts:58 | the line is "Using ", the displayed path, " to run " and the task names |
| `Cli.CompletedLine` | src/cli/index.ts:74 | the line is "Completed " and the task names. " with errors" follows exactly when the run failed: the line is 12 characters longer then. " in " and the elapsed time end the line |
| `Cli.ErrorText` | src/cli/index.ts:19-25 | a user error prints as "Error: " and its message. A native error with a non-empty stack prints as the stack. Anything else prints as its string form. For a value with no string form no line can be built (`None`) |
| `Cli.Main` | src/cli/index.ts:15-28 | the worker's effects come first. Besides the runner's own reporting, which is not modelled, there is exactly one error line if and only if the worker threw a value that has a string form, and it is that value's line. The exit code is 1 if and only if such a value was thrown or the run failed, and 0 otherwise. A value without a string form adds nothing to the worker's effects |
| `Cli.HelpComesFirst` | src/cli/index.ts:33-36 | with help requested, the outcome is the usage text alone, whatever the Terebyfile lookup, file system or loader would do |
| `Cli.HandOffEndsTheRun` | src/cli/index.ts:40 | after a hand-off the only effect is the import. There is no version line, no change of directory, no load and no run. This CLI sets no exit code of its own; the imported CLI's `main` decides the process's exit code |
| `Cli.VersionAfterReexec` | src/cli/index.ts:40-45 | the version line is printed only when re-exec keeps the run in-process, and it is then the only effect. A failed re-exec throws its error with no effect, and a hand-off only imports the other CLI |
| `Cli.ChdirBeforeLoad` | src/cli/index.ts:42-49 | past the version check, a successful change into the Terebyfile's directory is the first effect. A change that throws ends the worker with that error and no effect, before anything is loaded |
| `Cli.PrintTasksEndsTheRun` | src/cli/index.ts:47-54 | with a task listing requested and the change of directory succeeding, the worker changes directory, prints the loaded file's task list and stops: no selection, no run, exit code 0 |
| `Cli.ThrowBeforeAnything` | src/cli/index.ts:16-31 | a throw while reading the command line yields exactly one error line and exit code 1. If the thrown value has no string form, there is no effect at all |
| `Cli.UserErrorReported` | src/cli/index.ts:19-26 | a user error ends the output with "Error: <message>" and exit code 1 |
| `Cli.InProcessProceeds` | src/cli/index.ts:40-42 | once re-exec keeps the run in this process, the worker is exactly its later stages |
| `Cli.SelectedRunProceeds` | src/cli/index.ts:47-56 | with the directory changed, the file loaded, no listing asked for and tasks selected, the later stages are the change of directory followed by the run stage |
| `Cli.RunSelectedShape` | src/cli/index.ts:57-75 | the run stage logs the "Using" line, starts the runner on the selected tasks and ends with the completion line. It records a failed run if and only if the runner failed |
| `Cli.RunIsAlwaysCompleted` | src/cli/index.ts:47-75 | once the change of directory succeeds, a run does these in order: change directory, log the "Using" line, run, and finish with the completion line. The completion line says " with errors" if and only if the runner failed, and the exit code is then 1 (otherwise 0) |

## Left out

- Cli.Main: a value without a string form makes `main`'s own reporting throw (index.ts:24). What the process then does with that escaped error is outside the model, because it is decided by the code that calls `main`, which is not part of this model. `Unconvertible` stands for every such value.
- Cli.Main: the runner writes its own error lines while tasks run (index.ts:64-65), for example the failure report of a failing task, without throwing out of `mainWorker`. The runner is modelled only as success or failure. The error-line count is therefore about `main`'s own reporting, not every line the process writes.
- Command-line parsing and usage text (`src/cli/parseArgs.ts`): its result is an input, `Host.args`. Reading `argv` may throw, so that input is a `Result`.
- Terebyfile discovery and loading, the task listing, `simplifyPath` and the runner: these files are not part of this model. Each is an oracle in `Host`. The runner is a success/failure oracle, and its own per-task output is not modelled.
- `findUp` (in `utils.ts`) is not part of this model. It is modelled as: probe the directory, stop at the first result that is not `undefined`, and give up after probing the root.
- The change of directory (`d.chdir`, which in the real process can throw, for example for a missing directory) is the oracle `Host.chdir`, which gives what it throws. A failure is modelled as a thrown value, with no effect recorded.
- File-system calls (`existsSync`, `readFileSync`, `JSON.parse`, `realpathSync`) are given by `Fs`. A `package.json` that cannot be read or parsed is an error thrown out of the search. A real path that cannot be resolved is an error thrown by `realpath`.
- Path handling: paths are absolute segment lists. `.`/`..` normalisation, separators, drive letters and `pathToFileURL` are not modelled.
- The hand-off's dynamic import is recorded as an `Import` effect. What the imported CLI then does, and an import that fails, are outside the model.
- Colour codes and timing are left out. Output lines carry plain text, and the elapsed time is the opaque `Host.elapsed`.
- The fastest-levenshtein library's algorithm is not verified. The distance has its mathematical definition, and `closest` its documented choice rule.
- Strings are sequences of characters. JavaScript measures length and distance in UTF-16 code units, which this model does not distinguish.
- `Selection.CloseEnough`: the source compares `d < |name| * 0.4` in double precision. The model proves its integer test `5·d < 2·|name|` equal to that comparison in exact arithmetic, not in doubles. The two agree because 0.4 is stored with relative error 2⁻⁵⁴, too small to move the product across an integer for any realistic name length. That agreement is argued, not proved.
- `Selection.SelectTasks` takes a well-formed Terebyfile: at least one task, unique names, each task filed under its own name. That is what loading guarantees. For an empty task map the library's `closest` would return `undefined`, and that case is not modelled.
- Self-resolution order: a comment in `reexec.ts` notes that self-resolution should, strictly, come before the `node_modules` check. The code checks `node_modules` first, and the model follows the code.

=== FILE: cli.dfy ===
/** The command-line entry point (`main` and `mainWorker` of
    src/cli/index.ts) as a function from the host environment to the
    effects it performs, in order. */
module Cli {
  import opened Results
  import opened Paths
  import opened Errors
  import opened Terebyfile
  import opened Selection
  import opened Installation

  datatype TaskFormat = Normal | Simple

  /** The parsed command line. */
  datatype CliOptions = CliOptions(
    help: bool,
    run: seq<string>,
    terebyfile: Option<PathArg>,
    printTasks: Option<TaskFormat>,
    version: bool)

  /** What the entry point does to the outside world. */
  datatype Effect =
    | Log(text: string)          // d.log
    | ErrorLine(text: string)    // d.error
    | SetExitCode(code: int)     // d.setExitCode
    | Chdir(dir: Path)           // d.chdir
    | Import(cli: Path)          // the hand-off: importing another installation's CLI
    | RunTasks(tasks: seq<Task>) // starting the runner on the selected tasks

  /** The environment the entry point consults:
      - `args`: the result of parsing the command line, or what reading it throws;
      - `cwd`, `version`, `usage`, `elapsed`: the current directory, the
        package version, the usage text and the formatted run time;
      - `discovered`: what looking for a Terebyfile in `cwd` gives;
      - `fs`, `thisCli`: the file system and the path of the running CLI;
      - `chdir`: what changing into a directory throws, `None` when it succeeds;
      - `load`, `formatTasks`, `simplify`, `runTasks`: loading a Terebyfile,
        rendering the task list, abbreviating a path for display, and
        running tasks (true when every task succeeded). */
  datatype Host = Host(
    args: Result<CliOptions, Thrown>,
    cwd: Path,
    discovered: Result<PathArg, Thrown>,
    fs: Fs,
    thisCli: Path,
    version: string,
    usage: string,
    chdir: Path -> Option<Thrown>,
    load: Path -> Result<LoadedTerebyfile, Thrown>,
    formatTasks: (TaskFormat, seq<Task>, Option<Task>) -> string,
    simplify: Path -> string,
    runTasks: seq<Task> -> bool,
    elapsed: string)

  /** The effects of `mainWorker` up to its return or throw, and what it threw. */
  datatype Run = Run(effects: seq<Effect>, thrown: Option<Thrown>)

  /** `path.resolve(cwd, args.terebyfile ?? findTerebyfile(cwd))`: the
      lookup happens only when no path was given. */
  function TerebyfilePath(h: Host, args: CliOptions): (r: Result<Path, Thrown>)
    // A path given on the command line wins and cannot fail.
    ensures args.terebyfile.Some? ==> r == Ok(Resolve(h.cwd, args.terebyfile.value))
    // Otherwise the lookup's outcome decides, success and failure alike.
    ensures args.terebyfile.None? ==> (r.Ok? <==> h.discovered.Ok?)
    ensures args.terebyfile.None? && r.Ok? ==> r.value == Resolve(h.cwd, h.discovered.value)
    ensures args.terebyfile.None? && r.Err? ==> r.error == h.discovered.error
  {
    match args.terebyfile
    case Some(p) => Ok(Resolve(h.cwd, p))
    case None =>
      match h.discovered
      case Ok(p) => Ok(Resolve(h.cwd, p))
      case Err(e) => Err(e)
  }

  /** With a path on the command line, what a Terebyfile lookup would give
      is irrelevant. */
  lemma GivenPathSkipsLookup(h1: Host, h2: Host, args: CliOptions)
    requires args.terebyfile.Some? && h1.cwd == h2.cwd
    ensures TerebyfilePath(h1, args) == TerebyfilePath(h2, args)
  {
  }

  /** The task names joined by ", ". */
  function JoinNames(tasks: seq<Task>): (r: string)
    ensures |tasks| == 0 ==> r == ""
    ensures |tasks| == 1 ==> r == tasks[0].name
    // The list starts with the first task's name.
    ensures |tasks| > 0 ==> |r| >= |tasks[0].name| && r[..|tasks[0].name|] == tasks[0].name
    decreases |tasks|
  {
    if |tasks| == 0 then ""
    else if |tasks| == 1 then tasks[0].name
    else
      var r := tasks[0].name + ", " + JoinNames(tasks[1..]);
      assert r[..|tasks[0].name|] == tasks[0].name;
      r
  }

  /** Joining two non-empty lists of tasks is joining each and putting ", "
      between them. */
  lemma {:induction false} JoinNamesAppend(a: seq<Task>, b: seq<Task>)
    requires |a| > 0 && |b| > 0
    ensures JoinNames(a + b) == JoinNames(a) + ", " + JoinNames(b)
    decreases |a|
  {
    assert (a + b)[0] == a[0];
    if |a| == 1 {
      assert (a + b)[1..] == b;
    } else {
      assert (a + b)[1..] == a[1..] + b;
      JoinNamesAppend(a[1..], b);
    }
  }

  /** The line announcing a run: the displayed Terebyfile path after the
      6-character "Using ", and the task names at the end. */
  function UsingLine(shown: string, names: string): (r: string)
    ensures |r| == 6 + |shown| + 8 + |names|
    ensures r[..6] == "Using " && r[6 + |shown|..6 + |shown| + 8] == " to run "
    ensures r[6..6 + |shown|] == shown && r[|r| - |names|..] == names
  {
    var r := "Using " + shown + " to run " + names;
    assert r[6..6 + |shown|] == shown && r[|r| - |names|..] == names;
    r
  }

  /** The line closing a run: the task names after the 10-character
      "Completed ", " with errors" right after them exactly when the run
      failed, and the elapsed time at the end. */
  function CompletedLine(names: string, errored: bool, elapsed: string): (r: string)
    ensures |r| == 10 + |names| + (if errored then 12 else 0) + 4 + |elapsed|
    ensures r[..10] == "Completed " && r[|r| - |elapsed| - 4..|r| - |elapsed|] == " in "
    ensures r[10..10 + |names|] == names && r[|r| - |elapsed|..] == elapsed
    ensures errored ==> r[10 + |names|..10 + |names| + 12] == " with errors"
  {
    var mark := if errored then " with errors" else "";
    var r := "Completed " + names + mark + " in " + elapsed;
    assert r[10..10 + |names|] == names && r[|r| - |elapsed|..] == elapsed;
    assert r[10 + |names|..10 + |names| + |mark|] == mark;
    r
  }

  /** Whether the effects started the runner on tasks that then failed. */
  ghost predicate RunFailed(effects: seq<Effect>, runTasks: seq<Task> -> bool) {
    exists i :: 0 <= i < |effects| && effects[i].RunTasks? && !runTasks(effects[i].tasks)
  }

  /** The number of error lines written. */
  function ErrorLines(effects: seq<Effect>): nat
    decreases |effects|
  {
    if |effects| == 0 then 0
    else ErrorLines(effects[..|effects| - 1]) + (if effects[|effects| - 1].ErrorLine? then 1 else 0)
  }

  /** The process exit code the effects leave: the last one set, 0 if none. */
  function ExitCode(effects: seq<Effect>): int
    decreases |effects|
  {
    if |effects| == 0 then 0
    else if effects[|effects| - 1].SetExitCode? then effects[|effects| - 1].code
    else ExitCode(effects[..|effects| - 1])
  }

  /** What the worker and each of its later stages guarantee: no error
      line of their own (what the runner reports while tasks run is not
      modelled), an exit code set only to 1 and exactly when the runner
      reported failure, and nothing run once something has been thrown. */
  ghost predicate Orderly(r: Run, runTasks: seq<Task> -> bool) {
    && (forall i :: 0 <= i < |r.effects| ==> !r.effects[i].ErrorLine?)
    && (forall i :: 0 <= i < |r.effects| && r.effects[i].SetExitCode? ==> r.effects[i].code == 1)
    && ((exists i :: 0 <= i < |r.effects| && r.effects[i].SetExitCode?) <==> RunFailed(r.effects, runTasks))
    && (r.thrown.Some? ==> forall i :: 0 <= i < |r.effects| ==> !r.effects[i].RunTasks?)
  }

  /** `mainWorker(d)`. */
  function Worker(h: Host): (r: Run)
    ensures Orderly(r, h.runTasks)
  {
    match h.args
    case Err(e) => Run([], Some(e))
    case Ok(args) =>
      if args.help then Run([Log(h.usage)], None)
      else
        match TerebyfilePath(h, args)
        case Err(e) => Run([], Some(e))
        case Ok(path) =>
          match Reexec(h.fs, h.thisCli, path)
          case Err(e) => Run([], Some(e))
          case Ok(HandedOff(cli)) => Run([Import(cli)], None)
          case Ok(InProcess) => Proceed(h, args, path)
  }

  /** The part of `mainWorker` after re-exec kept the run in this process:
      the version, or else moving into the Terebyfile's directory and
      carrying on from there. A failed change of directory is thrown
      before anything is loaded. */
  function Proceed(h: Host, args: CliOptions, path: Path): (r: Run)
    ensures Orderly(r, h.runTasks)
  {
    if args.version then Run([Log("tereby " + h.version)], None)
    else
      var dir := Dirname(path);
      match h.chdir(dir)
      case Some(e) => Run([], Some(e))
      case None =>
        var rest := InTerebyfileDir(h, args, path);
        PrependQuiet(Chdir(dir), rest, h.runTasks);
        Run([Chdir(dir)] + rest.effects, rest.thrown)
  }

  /** An effect that is neither an error line, an exit code nor a run
      changes neither whether an exit code is set nor whether a run failed,
      so putting it first keeps a stage orderly. */
  lemma PrependQuiet(e: Effect, r: Run, runTasks: seq<Task> -> bool)
    requires !e.ErrorLine? && !e.SetExitCode? && !e.RunTasks?
    requires Orderly(r, runTasks)
    ensures var all := [e] + r.effects;
            (exists i :: 0 <= i < |all| && all[i].SetExitCode?) <==>
            (exists i :: 0 <= i < |r.effects| && r.effects[i].SetExitCode?)
    ensures RunFailed([e] + r.effects, runTasks) <==> RunFailed(r.effects, runTasks)
    ensures Orderly(Run([e] + r.effects, r.thrown), runTasks)
  {
    var effects := r.effects;
    var all := [e] + effects;
    assert forall i :: 0 < i < |all| ==> all[i] == effects[i - 1];
    if exists i :: 0 <= i < |all| && all[i].SetExitCode? {
      var i :| 0 <= i < |all| && all[i].SetExitCode?;
      assert effects[i - 1].SetExitCode?;
    }
    if exists i :: 0 <= i < |effects| && effects[i].SetExitCode? {
      var i :| 0 <= i < |effects| && effects[i].SetExitCode?;
      assert all[i + 1].SetExitCode?;
    }
    if RunFailed(all, runTasks) {
      var i :| 0 <= i < |all| && all[i].RunTasks? && !runTasks(all[i].tasks);
      assert effects[i - 1].RunTasks? && !runTasks(effects[i - 1].tasks);
    }
    if RunFailed(effects, runTasks) {
      var i :| 0 <= i < |effects| && effects[i].RunTasks? && !runTasks(effects[i].tasks);
      assert all[i + 1].RunTasks? && !runTasks(all[i + 1].tasks);
    }
  }

  /** `mainWorker` once in the Terebyfile's directory: loading, the task
      listing, selection and the run. */
  function InTerebyfileDir(h: Host, args: CliOptions, path: Path): (r: Run)
    ensures Orderly(r, h.runTasks)
  {
    match h.load(path)
    case Err(e) => Run([], Some(e))
    case Ok(tf) =>
      if args.printTasks.Some? then
        Run([Log(h.formatTasks(args.printTasks.value, tf.Values(), tf.defaultTask))], None)
      else
        match SelectTasks(h.simplify, tf, path, args.run)
        case Err(e) => Run([], Some(e))
        case Ok(tasks) =>
          RunSelectedShape(h, path, tasks);
          RunSelected(h, path, tasks)
  }

  /** The last stage of `mainWorker`: report the run, start the runner and
      report its completion, setting exit code 1 when it failed. */
  function RunSelected(h: Host, path: Path, tasks: seq<Task>): (r: Run)
    ensures r.thrown.None?
    ensures forall i :: 0 <= i < |r.effects| ==> !r.effects[i].ErrorLine?
    ensures forall i :: 0 <= i < |r.effects| && r.effects[i].SetExitCode? ==> r.effects[i].code == 1
    ensures (exists i :: 0 <= i < |r.effects| && r.effects[i].SetExitCode?) <==> !h.runTasks(tasks)
    ensures forall i :: 0 <= i < |r.effects| && r.effects[i].RunTasks? ==> r.effects[i].tasks == tasks
    ensures exists i :: 0 <= i < |r.effects| && r.effects[i].RunTasks?
  {
    var names := JoinNames(tasks);
    var errored := !h.runTasks(tasks);
    var started := [Log(UsingLine(h.simplify(path), names)), RunTasks(tasks)];
    var finished := [Log(CompletedLine(names, errored, h.elapsed))];
    if errored then
      var effects := started + [SetExitCode(1)] + finished;
      assert effects[1] == RunTasks(tasks) && effects[2] == SetExitCode(1);
      Run(effects, None)
    else
      var effects := started + finished;
      assert effects[1] == RunTasks(tasks);
      Run(effects, None)
  }

  /** The line `main` writes for a value `mainWorker` threw, or `None`
      when building that line throws: the string conversion of a value
      that has none. */
  function ErrorText(e: Thrown): (line: Option<string>)
    ensures line.None? <==> e.Unconvertible?
    ensures e.UserError? ==> |line.value| >= 7 && line.value[..7] == "Error: " && line.value[7..] == e.message
    ensures e.NativeError? && e.stack.Some? && e.stack.value != "" ==> line == Some(e.stack.value)
    ensures e.NativeError? && (e.stack.None? || e.stack.value == "") ==> line == Some(e.text)
    ensures e.NonError? ==> line == Some(e.text)
  {
    match e
    case UserError(message) => Some("Error: " + message)
    case NativeError(stack, text) => if stack.Some? && stack.value != "" then Some(stack.value) else Some(text)
    case NonError(text) => Some(text)
    case Unconvertible => None
  }

  /** Whether `main` reports what the worker threw: something was thrown
      and its error line can be built. */
  predicate Reported(w: Run) {
    w.thrown.Some? && !w.thrown.value.Unconvertible?
  }

  /** `main(d)`: runs the worker and turns what it throws into one error
      line and exit code 1. When the error line cannot be built, the
      conversion's own error escapes `main` before either is written. */
  function Main(h: Host): (r: seq<Effect>)
    // What the worker did before returning or throwing comes first.
    ensures |Worker(h).effects| <= |r| && r[..|Worker(h).effects|] == Worker(h).effects
    // Exactly one error line when a throw is reported, none otherwise.
    ensures ErrorLines(r) == (if Reported(Worker(h)) then 1 else 0)
    ensures Reported(Worker(h)) ==> ErrorLine(ErrorText(Worker(h).thrown.value).value) in r
    // Exit code 1 when a throw is reported or the tasks failed, and 0 otherwise.
    ensures ExitCode(r) == (if Reported(Worker(h)) || RunFailed(Worker(h).effects, h.runTasks) then 1 else 0)
    // A value without a string form adds nothing to what the worker did.
    ensures Worker(h).thrown == Some(Unconvertible) ==> r == Worker(h).effects
  {
    var w := Worker(h);
    NoErrorLines(w.effects);
    ExitCodeSetOnlyToOne(w.effects);
    match w.thrown
    case None => w.effects
    case Some(e) =>
      match ErrorText(e)
      case None => w.effects
      case Some(line) =>
        var tail := [ErrorLine(line), SetExitCode(1)];
        ErrorLinesAppend(w.effects, tail);
        assert (w.effects + tail)[..|w.effects|] == w.effects;
        w.effects + tail
  }

  lemma {:induction false} ErrorLinesAppend(a: seq<Effect>, b: seq<Effect>)
    ensures ErrorLines(a + b) == ErrorLines(a) + ErrorLines(b)
    decreases |b|
  {
    if |b| == 0 {
      assert a + b == a;
    } else {
      var b' := b[..|b| - 1];
      ErrorLinesAppend(a, b');
      assert (a + b)[..|a + b| - 1] == a + b';
    }
  }

  lemma {:induction false} NoErrorLines(effects: seq<Effect>)
    requires forall i :: 0 <= i < |effects| ==> !effects[i].ErrorLine?
    ensures ErrorLines(effects) == 0
    decreases |effects|
  {
    if |effects| > 0 {
      NoErrorLines(effects[..|effects| - 1]);
    }
  }

  /** Effects that set the exit code only to 1 leave 1 exactly when they set it at all. */
  lemma {:induction false} ExitCodeSetOnlyToOne(effects: seq<Effect>)
    requires forall i :: 0 <= i < |effects| && effects[i].SetExitCode? ==> effects[i].code == 1
    ensures ExitCode(effects) == (if exists i :: 0 <= i < |effects| && effects[i].SetExitCode? then 1 else 0)
    decreases |effects|
  {
    if |effects| > 0 {
      var prefix := effects[..|effects| - 1];
      ExitCodeSetOnlyToOne(prefix);
      if !effects[|effects| - 1].SetExitCode? {
        assert forall i :: 0 <= i < |prefix| ==> prefix[i] == effects[i];
      }
    }
  }

  /** Help is answered before any Terebyfile is looked for: nothing but the
      usage text matters. */
  lemma HelpComesFirst(h1: Host, h2: Host)
    requires h1.args.Ok? && h1.args.value.help
    requires h2.args == h1.args && h2.usage == h1.usage
    ensures Worker(h1) == Worker(h2) == Run([Log(h1.usage)], None)
  {
  }

  /** After a hand-off the worker does nothing more: no version, no change
      of directory, no loading, no run. This CLI records no exit code of
      its own; the imported CLI decides the process's. */
  lemma HandOffEndsTheRun(h: Host, args: CliOptions, path: Path, cli: Path)
    requires h.args == Ok(args) && !args.help
    requires TerebyfilePath(h, args) == Ok(path)
    requires Reexec(h.fs, h.thisCli, path) == Ok(HandedOff(cli))
    ensures Worker(h) == Run([Import(cli)], None)
    ensures Main(h) == [Import(cli)] && ExitCode(Main(h)) == 0
  {
  }

  /** The version is printed only by the installation that keeps the run,
      before any change of directory. A failed re-exec prints nothing, and
      a hand-off leaves the version to the other installation. */
  lemma VersionAfterReexec(h: Host, args: CliOptions, path: Path)
    requires h.args == Ok(args) && !args.help && args.version
    requires TerebyfilePath(h, args) == Ok(path)
    ensures Reexec(h.fs, h.thisCli, path) == Ok(InProcess) ==> Worker(h) == Run([Log("tereby " + h.version)], None)
    ensures Reexec(h.fs, h.thisCli, path).Err? ==> Worker(h) == Run([], Some(Reexec(h.fs, h.thisCli, path).error))
    ensures Reexec(h.fs, h.thisCli, path).Ok? && Reexec(h.fs, h.thisCli, path).value.HandedOff? ==>
              Worker(h) == Run([Import(Reexec(h.fs, h.thisCli, path).value.cli)], None)
  {
  }

  /** Once re-exec keeps the run in this process, the worker is its later stages. */
  lemma InProcessProceeds(h: Host, args: CliOptions, path: Path)
    requires h.args == Ok(args) && !args.help
    requires TerebyfilePath(h, args) == Ok(path)
    requires Reexec(h.fs, h.thisCli, path) == Ok(InProcess)
    ensures Worker(h) == Proceed(h, args, path)
  {
  }

  /** Past the version check, the first thing done is moving into the
      Terebyfile's directory, before it is loaded: when that succeeds it
      is the first effect, and when it throws, the error is all there is,
      whatever loading would have given. */
  lemma ChdirBeforeLoad(h: Host, args: CliOptions, path: Path)
    requires h.args == Ok(args) && !args.help && !args.version
    requires TerebyfilePath(h, args) == Ok(path)
    requires Reexec(h.fs, h.thisCli, path) == Ok(InProcess)
    ensures h.chdir(Dirname(path)).None? ==>
              |Worker(h).effects| > 0 && Worker(h).effects[0] == Chdir(Dirname(path))
    ensures h.chdir(Dirname(path)).Some? ==> Worker(h) == Run([], h.chdir(Dirname(path)))
  {
    InProcessProceeds(h, args, path);
  }

  /** With `--tasks` or `--tasks-simple`, the loaded Terebyfile's task list
      is printed and the worker stops there: no selection and no run. */
  lemma PrintTasksEndsTheRun(h: Host, args: CliOptions, path: Path, tf: LoadedTerebyfile)
    requires h.args == Ok(args) && !args.help && !args.version && args.printTasks.Some?
    requires TerebyfilePath(h, args) == Ok(path)
    requires Reexec(h.fs, h.thisCli, path) == Ok(InProcess)
    requires h.chdir(Dirname(path)).None? && h.load(path) == Ok(tf)
    ensures Worker(h) == Run([Chdir(Dirname(path)), Log(h.formatTasks(args.printTasks.value, tf.Values(), tf.defaultTask))], None)
    ensures ExitCode(Main(h)) == 0
  {
    var listing := Log(h.formatTasks(args.printTasks.value, tf.Values(), tf.defaultTask));
    assert InTerebyfileDir(h, args, path) == Run([listing], None);
    var w := Run([Chdir(Dirname(path)), listing], None);
    InProcessProceeds(h, args, path);
    assert Proceed(h, args, path) == w;
    assert Main(h) == w.effects;
    assert w.effects[..1] == [Chdir(Dirname(path))];
  }

  /** Anything thrown while reading the command line is reported on its
      own: one error line, exit code 1. A value without a string form is
      not reported at all. */
  lemma ThrowBeforeAnything(h: Host)
    requires h.args.Err?
    ensures !h.args.error.Unconvertible? ==>
              Main(h) == [ErrorLine(ErrorText(h.args.error).value), SetExitCode(1)]
    ensures h.args.error.Unconvertible? ==> Main(h) == []
  {
  }

  /** A user error, such as an unknown task name, is reported as
      "Error: " and its message, after whatever the worker had done. */
  lemma UserErrorReported(h: Host, message: string)
    requires Worker(h).thrown == Some(UserError(message))
    ensures var r := Main(h);
            |r| >= 2 && r[|r| - 2] == ErrorLine("Error: " + message) && r[|r| - 1] == SetExitCode(1)
  {
  }

  /** With tasks selected, the later stages are the change of directory
      followed by the run stage. */
  lemma SelectedRunProceeds(h: Host, args: CliOptions, path: Path, tf: LoadedTerebyfile, tasks: seq<Task>)
    requires !args.version && args.printTasks.None?
    requires h.chdir(Dirname(path)).None? && h.load(path) == Ok(tf)
    requires SelectTasks(h.simplify, tf, path, args.run) == Ok(tasks)
    ensures Proceed(h, args, path) == Run([Chdir(Dirname(path))] + RunSelected(h, path, tasks).effects, None)
  {
    assert InTerebyfileDir(h, args, path) == RunSelected(h, path, tasks);
  }

  /** The run stage logs the "Using" line, starts the runner, and ends with
      the completion line; it records a failed run exactly when the runner
      failed. */
  lemma RunSelectedShape(h: Host, path: Path, tasks: seq<Task>)
    ensures var e := RunSelected(h, path, tasks).effects;
            && |e| >= 3
            && e[0] == Log(UsingLine(h.simplify(path), JoinNames(tasks)))
            && e[1] == RunTasks(tasks)
            && e[|e| - 1] == Log(CompletedLine(JoinNames(tasks), !h.runTasks(tasks), h.elapsed))
    ensures RunFailed(RunSelected(h, path, tasks).effects, h.runTasks) <==> !h.runTasks(tasks)
  {
    var e := RunSelected(h, path, tasks).effects;
    assert e[1] == RunTasks(tasks);
  }

  /** A run always ends with the completion line, which says "with errors"
      exactly when the runner failed; only then is the exit code 1. */
  lemma RunIsAlwaysCompleted(h: Host, args: CliOptions, path: Path, tf: LoadedTerebyfile, tasks: seq<Task>)
    requires h.args == Ok(args) && !args.help && !args.version && args.printTasks.None?
    requires TerebyfilePath(h, args) == Ok(path)
    requires Reexec(h.fs, h.thisCli, path) == Ok(InProcess)
    requires h.chdir(Dirname(path)).None? && h.load(path) == Ok(tf)
    requires SelectTasks(h.simplify, tf, path, args.run) == Ok(tasks)
    ensures var w := Worker(h);
            && w.thrown.None?
            && |w.effects| >= 4
            && w.effects[0] == Chdir(Dirname(path))
            && w.effects[1] == Log(UsingLine(h.simplify(path), JoinNames(tasks)))
            && w.effects[2] == RunTasks(tasks)
            && w.effects[|w.effects| - 1] == Log(CompletedLine(JoinNames(tasks), !h.runTasks(tasks), h.elapsed))
    ensures ExitCode(Main(h)) == (if h.runTasks(tasks) then 0 else 1)
  {
    InProcessProceeds(h, args, path);
    SelectedRunProceeds(h, args, path, tf, tasks);
    var rest := RunSelected(h, path, tasks);
    RunSelectedShape(h, path, tasks);
    // The exit code follows the runner's verdict.
    PrependQuiet(Chdir(Dirname(path)), rest, h.runTasks);
  }
}

=== FILE: errors.dfy ===
/** The values that can be thrown out of the command-line worker. */
module Errors {
  import opened Results

  /** A thrown value, as the top level distinguishes them.
      - `UserError`: the tool's own error class for expected, user-caused problems;
      - `NativeError`: any other built-in error object, with its `stack`
        property (absent or possibly empty) and its string form;
      - `NonError`: anything else that can be thrown (a number, a string, ...),
        given by its string form;
      - `Unconvertible`: a thrown value whose conversion to a string itself
        throws, such as a symbol or an object without a prototype. */
  datatype Thrown =
    | UserError(message: string)
    | NativeError(stack: Option<string>, text: string)
    | NonError(text: string)
    | Unconvertible
}

=== FILE: levenshtein.dfy ===
/** Levenshtein edit distance and the "closest candidate" choice used for the
    "did you mean" suggestion of the task selector.  The distance is given
    its mathematical definition. `ComputeDistance` is an executable
    row-by-row computation proved equal to it, as a check of that
    definition. */
module Levenshtein {

  function Min3(x: nat, y: nat, z: nat): (m: nat)
    ensures m <= x && m <= y && m <= z
    ensures m == x || m == y || m == z
  {
    if x <= y && x <= z then x else if y <= z then y else z
  }

  /** The least number of single-character insertions, deletions and
      substitutions that turn `a` into `b`. */
  function Distance(a: string, b: string): nat
    decreases |a| + |b|
  {
    if |a| == 0 then |b|
    else if |b| == 0 then |a|
    else
      var cost := if a[|a| - 1] == b[|b| - 1] then 0 else 1;
      Min3(Distance(a[..|a| - 1], b) + 1,
           Distance(a, b[..|b| - 1]) + 1,
           Distance(a[..|a| - 1], b[..|b| - 1]) + cost)
  }

  /** A string is at distance 0 from itself. */
  lemma {:induction false} DistanceToSelf(a: string)
    ensures Distance(a, a) == 0
    decreases |a|
  {
    if |a| > 0 {
      DistanceToSelf(a[..|a| - 1]);
    }
  }

  /** Only equal strings are at distance 0. */
  lemma {:induction false} DistanceZeroOnlyIfEqual(a: string, b: string)
    requires Distance(a, b) == 0
    ensures a == b
    decreases |a| + |b|
  {
    if |a| > 0 && |b| > 0 {
      var a', b' := a[..|a| - 1], b[..|b| - 1];
      assert Distance(a', b') == 0 && a[|a| - 1] == b[|b| - 1];
      DistanceZeroOnlyIfEqual(a', b');
      assert a == a' + [a[|a| - 1]] && b == b' + [b[|b| - 1]];
    }
  }

  /** Distance 0 means equal strings, and only that. */
  lemma DistanceZeroIffEqual(a: string, b: string)
    ensures Distance(a, b) == 0 <==> a == b
  {
    if a == b {
      DistanceToSelf(a);
    } else if Distance(a, b) == 0 {
      DistanceZeroOnlyIfEqual(a, b);
    }
  }

  /** The distance is never less than the difference of the lengths. */
  lemma {:induction false} DistanceAtLeastLengthGap(a: string, b: string)
    ensures Distance(a, b) >= |a| - |b| && Distance(a, b) >= |b| - |a|
    decreases |a| + |b|
  {
    if |a| > 0 && |b| > 0 {
      DistanceAtLeastLengthGap(a[..|a| - 1], b);
      DistanceAtLeastLengthGap(a, b[..|b| - 1]);
      DistanceAtLeastLengthGap(a[..|a| - 1], b[..|b| - 1]);
    }
  }

  /** Prefixes of two equally long strings that agree everywhere except
      possibly at position `k` are at distance at most 1, and at distance 0
      while the prefix stops before `k`. */
  lemma {:induction false} OneMismatchPrefix(a: string, b: string, k: nat, n: nat)
    requires |a| == |b| && n <= |a|
    requires forall i :: 0 <= i < |a| && i != k ==> a[i] == b[i]
    ensures Distance(a[..n], b[..n]) <= (if k < n then 1 else 0)
    decreases n
  {
    if n > 0 {
      OneMismatchPrefix(a, b, k, n - 1);
      var x, y := a[..n], b[..n];
      assert x[..n - 1] == a[..n - 1] && y[..n - 1] == b[..n - 1];
    }
  }

  /** Equally long strings that differ at one position at most are at
      distance at most 1: a single substitution. */
  lemma DistanceOneMismatch(a: string, b: string, k: nat)
    requires |a| == |b|
    requires forall i :: 0 <= i < |a| && i != k ==> a[i] == b[i]
    ensures Distance(a, b) <= 1
  {
    OneMismatchPrefix(a, b, k, |a|);
    assert a[..|a|] == a && b[..|b|] == b;
  }

  /** One cell of the edit-distance table, in terms of its three neighbours. */
  lemma DistanceCell(a: string, b: string, i: nat, j: nat)
    requires i < |a| && 0 < j <= |b|
    ensures Distance(a[..i + 1], b[..j]) ==
            Min3(Distance(a[..i], b[..j]) + 1,
                 Distance(a[..i + 1], b[..j - 1]) + 1,
                 Distance(a[..i], b[..j - 1]) + (if a[i] == b[j - 1] then 0 else 1))
  {
    var x, y := a[..i + 1], b[..j];
    assert x[..|x| - 1] == a[..i] && y[..|y| - 1] == b[..j - 1];
  }

  /** A row-by-row computation of the edit-distance table, proved equal to
      `Distance`. It checks the recursive definition against the usual
      table algorithm. The suggestion logic does not call it, and it is not
      the algorithm of the library the command line uses. */
  method ComputeDistance(a: string, b: string) returns (d: nat)
    ensures d == Distance(a, b)
  {
    var prev: seq<nat> := [];
    var j := 0;
    while j <= |b|
      invariant 0 <= j <= |b| + 1
      invariant |prev| == j
      invariant forall k :: 0 <= k < j ==> prev[k] == Distance(a[..0], b[..k])
    {
      prev := prev + [j];
      j := j + 1;
    }
    var i := 0;
    while i < |a|
      invariant 0 <= i <= |a|
      invariant |prev| == |b| + 1
      invariant forall k :: 0 <= k <= |b| ==> prev[k] == Distance(a[..i], b[..k])
    {
      var row := NextRow(a, b, i, prev);
      prev := row;
      i := i + 1;
    }
    assert a[..|a|] == a && b[..|b|] == b;
    d := prev[|b|];
  }

  /** Row `i + 1` of the edit-distance table from row `i`. */
  method NextRow(a: string, b: string, i: nat, prev: seq<nat>) returns (row: seq<nat>)
    requires i < |a| && |prev| == |b| + 1
    requires forall k :: 0 <= k <= |b| ==> prev[k] == Distance(a[..i], b[..k])
    ensures |row| == |b| + 1
    ensures forall k :: 0 <= k <= |b| ==> row[k] == Distance(a[..i + 1], b[..k])
  {
    row := [i + 1];
    var j := 1;
    while j <= |b|
      invariant 1 <= j <= |b| + 1
      invariant |row| == j
      invariant forall k :: 0 <= k < j ==> row[k] == Distance(a[..i + 1], b[..k])
    {
      var cost := if a[i] == b[j - 1] then 0 else 1;
      var cell := Min3(prev[j] + 1, row[j - 1] + 1, prev[j - 1] + cost);
      DistanceCell(a, b, i, j);
      assert cell == Distance(a[..i + 1], b[..j]);
      var row' := row + [cell];
      assert forall k :: 0 <= k < j ==> row'[k] == row[k];
      row := row';
      j := j + 1;
    }
  }

  /** The index of the first candidate at minimal distance from `name`, the
      choice of `closest` from the fastest-levenshtein package: candidates
      are scanned in order and a later one replaces the best so far only
      when strictly nearer. */
  function ClosestIndex(name: string, candidates: seq<string>): (i: nat)
    requires |candidates| > 0
    ensures i < |candidates|
    ensures forall j :: 0 <= j < |candidates| ==>
              Distance(name, candidates[i]) <= Distance(name, candidates[j])
    ensures forall j :: 0 <= j < i ==>
              Distance(name, candidates[i]) < Distance(name, candidates[j])
    decreases |candidates|
  {
    if |candidates| == 1 then 0
    else
      var last := |candidates| - 1;
      var init := candidates[..last];
      var k := ClosestIndex(name, init);
      assert forall j :: 0 <= j < last ==> init[j] == candidates[j];
      if Distance(name, candidates[last]) < Distance(name, init[k]) then last else k
  }
}

=== FILE: paths.dfy ===
/** Absolute file-system paths as lists of segments below the root.
    The root directory itself is the empty list. */
module Paths {

  type Path = seq<string>

  /** A path as written on the command line or returned by a lookup:
      absolute, or relative to some directory. */
  datatype PathArg = Absolute(segments: seq<string>) | Relative(segments: seq<string>)

  /** `path.resolve(dir, p)`, without `.` and `..` normalisation. */
  function Resolve(dir: Path, p: PathArg): (r: Path)
    ensures p.Absolute? ==> r == p.segments
    ensures p.Relative? ==> |r| == |dir| + |p.segments| && r[..|dir|] == dir && r[|dir|..] == p.segments
  {
    match p
    case Absolute(s) => s
    case Relative(s) => dir + s
  }

  /** `path.dirname`: the parent directory; the root is its own parent. */
  function Dirname(p: Path): (r: Path)
    ensures |p| == 0 ==> r == p
    ensures |p| > 0 ==> |r| == |p| - 1 && r + [p[|p| - 1]] == p
  {
    if |p| == 0 then p else p[..|p| - 1]
  }

  /** The directories visited when walking up from `dir`: `dir` itself,
      then each parent in turn, ending at the root. */
  function Ancestors(dir: Path): (r: seq<Path>)
    ensures |r| == |dir| + 1
    ensures r[0] == dir && r[|r| - 1] == []
    decreases |dir|
  {
    if |dir| == 0 then [dir] else [dir] + Ancestors(Dirname(dir))
  }

  /** Below the first entry, the walk from `dir` is the walk from its parent. */
  lemma AncestorsShift(dir: Path)
    requires |dir| > 0
    ensures forall i :: 0 < i <= |dir| ==> Ancestors(dir)[i] == Ancestors(Dirname(dir))[i - 1]
  {
    assert Ancestors(dir) == [dir] + Ancestors(Dirname(dir));
  }

  /** The `i`-th directory on the way up is `dir` with its last `i` segments dropped. */
  lemma {:induction false} AncestorsArePrefixes(dir: Path)
    ensures forall i :: 0 <= i <= |dir| ==> Ancestors(dir)[i] == dir[..|dir| - i]
    decreases |dir|
  {
    if |dir| > 0 {
      var up := Dirname(dir);
      AncestorsArePrefixes(up);
      assert Ancestors(dir) == [dir] + Ancestors(up);
      forall i | 0 < i <= |dir|
        ensures Ancestors(dir)[i] == dir[..|dir| - i]
      {
        calc {
          Ancestors(dir)[i];
          Ancestors(up)[i - 1];
          up[..|up| - (i - 1)];
          { assert |up| - (i - 1) == |dir| - i; }
          dir[..|dir| - i];
        }
      }
    }
  }
}

=== FILE: reexec.dfy ===
/** Finding the installation of tereby that a Terebyfile imports, and
    deciding whether to hand control over to it (`reexec` of
    src/cli/reexec.ts). */
module Installation {
  import opened Results
  import opened Paths
  import opened Errors

  /** The package's own name, as a manifest must spell it to self-resolve. */
  const PackageName := "tereby"

  /** `dist/cli.js` below a package root. */
  const DistCli: Path := ["dist", "cli.js"]

  /** `node_modules/tereby/dist/cli.js` below a directory. */
  const ExpectedCli: Path := ["node_modules", "tereby", "dist", "cli.js"]

  const NotFoundMessage := "Unable to find tereby; ensure tereby is installed in your package."

  /** What reading a directory's `package.json` gives: its `name` when that
      is a string (`None` for a missing or non-string name), or the error
      reading or parsing the file throws. */
  datatype Manifest = Parsed(name: Option<string>) | Unreadable(error: Thrown)

  /** The file system as `reexec` probes it:
      - `files`: the paths that exist (`existsSync`);
      - `manifests`: the directories holding a `package.json`, with what reading it gives;
      - `realpath`: `realpathSync`, which resolves links or throws. */
  datatype Fs = Fs(files: set<Path>, manifests: map<Path, Manifest>, realpath: Path -> Result<Path, Thrown>)

  /** The outcome of probing one directory, and of the whole search:
      nothing found here, a CLI to use, or an error thrown while probing. */
  datatype Probe = Miss | Hit(cli: Path) | Fail(error: Thrown)

  /** What the caller is to do: carry on in this process, or stop because
      control went to the CLI at `cli`. */
  datatype Handoff = InProcess | HandedOff(cli: Path)

  /** The test `reexec` applies to each directory on the way up. */
  function ProbeDir(fs: Fs, dir: Path): (r: Probe)
    // An installed copy under node_modules wins over everything else.
    ensures dir + ExpectedCli in fs.files ==> r == Hit(dir + ExpectedCli)
    // Otherwise a manifest naming this package resolves to its own dist/cli.js,
    // whether or not that file exists.
    ensures (dir + ExpectedCli !in fs.files && dir in fs.manifests &&
             fs.manifests[dir] == Parsed(Some(PackageName))) ==> r == Hit(dir + DistCli)
    // A manifest that cannot be read aborts the search.
    ensures dir + ExpectedCli !in fs.files && dir in fs.manifests && fs.manifests[dir].Unreadable?
            ==> r == Fail(fs.manifests[dir].error)
    // Anything else (no manifest, another name, no name) lets the walk go on.
    ensures r.Miss? <==>
              dir + ExpectedCli !in fs.files &&
              (dir !in fs.manifests ||
               (fs.manifests[dir].Parsed? && fs.manifests[dir].name != Some(PackageName)))
  {
    var p := dir + ExpectedCli;
    if p in fs.files then Hit(p)
    else if dir in fs.manifests then
      match fs.manifests[dir]
      case Unreadable(e) => Fail(e)
      case Parsed(name) => if name == Some(PackageName) then Hit(dir + DistCli) else Miss
    else Miss
  }

  /** `findUp(dir, probe)`: probes `dir` and then each parent up to the
      root, stopping at the first directory whose probe is not a miss. */
  function FindUp(fs: Fs, dir: Path): (r: Probe)
    // The starting directory is probed first.
    ensures !ProbeDir(fs, dir).Miss? ==> r == ProbeDir(fs, dir)
    // A miss means even the root was probed and missed.
    ensures r.Miss? ==> ProbeDir(fs, dir).Miss? && ProbeDir(fs, []).Miss?
    // Whatever is found is a `cli.js` entry point.
    ensures r.Hit? ==> |r.cli| > 0 && r.cli[|r.cli| - 1] == "cli.js"
    decreases |dir|
  {
    var here := ProbeDir(fs, dir);
    if !here.Miss? then here
    else if |dir| == 0 then Miss
    else FindUp(fs, Dirname(dir))
  }

  /** The search result is the probe of the nearest ancestor that does not
      miss, and a miss only when every ancestor up to the root misses. */
  lemma {:induction false} FindUpIsNearestHit(fs: Fs, dir: Path)
    ensures FindUp(fs, dir).Miss? <==>
              forall i :: 0 <= i <= |dir| ==> ProbeDir(fs, Ancestors(dir)[i]).Miss?
    ensures !FindUp(fs, dir).Miss? ==>
              exists k :: 0 <= k <= |dir| && ProbeDir(fs, Ancestors(dir)[k]) == FindUp(fs, dir) &&
                (forall j :: 0 <= j < k ==> ProbeDir(fs, Ancestors(dir)[j]).Miss?)
    decreases |dir|
  {
    var chain := Ancestors(dir);
    assert chain[0] == dir;
    if ProbeDir(fs, dir).Miss? && |dir| > 0 {
      var up := Dirname(dir);
      FindUpIsNearestHit(fs, up);
      assert FindUp(fs, up).Miss? ==> forall i :: 0 <= i <= |up| ==> ProbeDir(fs, Ancestors(up)[i]).Miss?;
      assert FindUp(fs, dir) == FindUp(fs, up);
      var chain' := Ancestors(up);
      AncestorsShift(dir);
      if !FindUp(fs, up).Miss? {
        var k :| 0 <= k < |chain'| && ProbeDir(fs, chain'[k]) == FindUp(fs, up) &&
                 (forall j :: 0 <= j < k ==> ProbeDir(fs, chain'[j]).Miss?);
        // The nearest hit from `up` is one step further along the walk from `dir`.
        forall j | 0 <= j < k + 1
          ensures ProbeDir(fs, chain[j]).Miss?
        {
          if j > 0 {
            assert chain[j] == chain'[j - 1];
          }
        }
        assert chain[k + 1] == chain'[k];
        assert ProbeDir(fs, chain[k + 1]) == FindUp(fs, dir) && !ProbeDir(fs, chain[k + 1]).Miss?;
        assert 0 <= k + 1 <= |dir| && ProbeDir(fs, chain[k + 1]) == FindUp(fs, dir) &&
               (forall j :: 0 <= j < k + 1 ==> ProbeDir(fs, chain[j]).Miss?);
        assert !(forall i :: 0 <= i <= |dir| ==> ProbeDir(fs, Ancestors(dir)[i]).Miss?);
        assert exists k :: 0 <= k <= |dir| && ProbeDir(fs, Ancestors(dir)[k]) == FindUp(fs, dir) &&
                (forall j :: 0 <= j < k ==> ProbeDir(fs, Ancestors(dir)[j]).Miss?);
      } else {
        assert forall i :: 0 <= i < |chain'| ==> ProbeDir(fs, chain'[i]).Miss?;
        forall i | 0 <= i < |chain|
          ensures ProbeDir(fs, chain[i]).Miss?
        {
          if i > 0 {
            assert chain[i] == chain'[i - 1];
          }
        }
      }
    }
  }

  /** `reexec(terebyfilePath)` for the CLI at `thisCli`. */
  function Reexec(fs: Fs, thisCli: Path, terebyfilePath: Path): (r: Result<Handoff, Thrown>)
    // The search starts in the Terebyfile's directory; finding nothing is a user error.
    ensures FindUp(fs, Dirname(terebyfilePath)).Miss? ==> r == Err(UserError(NotFoundMessage))
    ensures FindUp(fs, Dirname(terebyfilePath)).Fail? ==> r == Err(FindUp(fs, Dirname(terebyfilePath)).error)
    // Success means a CLI was found and both real paths resolved; the
    // caller carries on exactly when they are the same file.
    ensures r.Ok? ==>
              var found := FindUp(fs, Dirname(terebyfilePath));
              found.Hit? && fs.realpath(thisCli).Ok? && fs.realpath(found.cli).Ok? &&
              (r.value == InProcess <==> fs.realpath(thisCli).value == fs.realpath(found.cli).value) &&
              (r.value.HandedOff? ==> r.value.cli == found.cli)
    // A real path that cannot be resolved is thrown, this CLI's first.
    ensures var found := FindUp(fs, Dirname(terebyfilePath));
            found.Hit? && fs.realpath(thisCli).Err? ==> r == Err(fs.realpath(thisCli).error)
    ensures var found := FindUp(fs, Dirname(terebyfilePath));
            found.Hit? && fs.realpath(thisCli).Ok? && fs.realpath(found.cli).Err? ==>
              r == Err(fs.realpath(found.cli).error)
    // A found CLI whose real path resolves always yields a decision.
    ensures var found := FindUp(fs, Dirname(terebyfilePath));
            found.Hit? && fs.realpath(thisCli).Ok? && fs.realpath(found.cli).Ok? ==> r.Ok?
  {
    match FindUp(fs, Dirname(terebyfilePath))
    case Fail(e) => Err(e)
    case Miss => Err(UserError(NotFoundMessage))
    case Hit(other) =>
      match fs.realpath(thisCli)
      case Err(e) => Err(e)
      case Ok(self) =>
        match fs.realpath(other)
        case Err(e) => Err(e)
        case Ok(target) => if self == target then Ok(InProcess) else Ok(HandedOff(other))
  }

  /** Whatever lies above the nearest hit is never consulted: two file
      systems that agree on the directories up to and including the
      nearest hit give the same search result. */
  lemma {:induction false} NearestHitWins(fs1: Fs, fs2: Fs, dir: Path, k: nat)
    requires k <= |dir|
    requires forall j :: 0 <= j <= k ==> ProbeDir(fs1, Ancestors(dir)[j]) == ProbeDir(fs2, Ancestors(dir)[j])
    requires !ProbeDir(fs1, Ancestors(dir)[k]).Miss?
    ensures FindUp(fs1, dir) == FindUp(fs2, dir)
    decreases |dir|
  {
    var chain := Ancestors(dir);
    assert chain[0] == dir;
    assert ProbeDir(fs1, dir) == ProbeDir(fs2, dir);
    if ProbeDir(fs1, dir).Miss? {
      assert k > 0;
      var up := Dirname(dir);
      assert chain == [dir] + Ancestors(up);
      forall j | 0 <= j <= k - 1
        ensures ProbeDir(fs1, Ancestors(up)[j]) == ProbeDir(fs2, Ancestors(up)[j])
      {
        assert Ancestors(up)[j] == chain[j + 1];
      }
      assert Ancestors(up)[k - 1] == chain[k];
      NearestHitWins(fs1, fs2, up, k - 1);
      assert FindUp(fs1, dir) == FindUp(fs1, up);
      assert FindUp(fs2, dir) == FindUp(fs2, up);
    }
  }
}

=== FILE: reexec_scenarios.dfy ===
/** The installation layouts exercised by the end-to-end CLI tests, for a
    package rooted at an arbitrary directory `root` and no links. */
module ReexecScenarios {
  import opened Results
  import opened Paths
  import opened Errors
  import opened Installation

  function NoLinks(p: Path): Result<Path, Thrown> {
    Ok(p)
  }

  /** A package with a Terebyfile but tereby installed nowhere above it. */
  lemma NotInstalled(root: Path, thisCli: Path)
    ensures var fs := Fs({root + ["Terebyfile.mjs"]}, map[], NoLinks);
            Reexec(fs, thisCli, root + ["Terebyfile.mjs"]) == Err(UserError(NotFoundMessage))
  {
    var fs := Fs({root + ["Terebyfile.mjs"]}, map[], NoLinks);
    var path := root + ["Terebyfile.mjs"];
    assert Dirname(path) == root;
    forall i | 0 <= i <= |root|
      ensures ProbeDir(fs, Ancestors(root)[i]).Miss?
    {
      var a := Ancestors(root)[i];
      var p := a + ExpectedCli;
      assert p[|p| - 1] == "cli.js" != path[|path| - 1];
    }
    FindUpIsNearestHit(fs, root);
  }

  /** tereby installed in the package's own node_modules, next to a
      manifest of another name: control goes to that copy. */
  lemma InstalledInNodeModules(root: Path, thisCli: Path)
    requires thisCli != root + ExpectedCli
    ensures var fs := Fs({root + ["Terebyfile.mjs"], root + ExpectedCli},
                         map[root := Parsed(Some("test")),
                             root + ["node_modules", "tereby"] := Parsed(Some("tereby"))],
                         NoLinks);
            Reexec(fs, thisCli, root + ["Terebyfile.mjs"]) == Ok(HandedOff(root + ExpectedCli))
  {
    var path := root + ["Terebyfile.mjs"];
    assert Dirname(path) == root;
  }

  /** A Terebyfile inside a dependency of a tereby checkout: the dependency's
      own manifest names another package, so the walk goes on up to the
      checkout, whose manifest self-resolves to its dist/cli.js. */
  lemma SelfResolvedAbove(root: Path, thisCli: Path)
    requires thisCli != root + ["node_modules", "tereby", "dist", "cli.js"]
    ensures var tereby := root + ["node_modules", "tereby"];
            var dep := tereby + ["node_modules", "someDep"];
            var fs := Fs({tereby + DistCli, dep + ["Terebyfile.mjs"]},
                         map[root := Parsed(Some("test")),
                             tereby := Parsed(Some("tereby")),
                             dep := Parsed(Some("someDep"))],
                         NoLinks);
            Reexec(fs, thisCli, dep + ["Terebyfile.mjs"]) == Ok(HandedOff(tereby + DistCli))
  {
    var tereby := root + ["node_modules", "tereby"];
    var nested := tereby + ["node_modules"];
    var dep := nested + ["someDep"];
    var fs := Fs({tereby + DistCli, dep + ["Terebyfile.mjs"]},
                 map[root := Parsed(Some("test")), tereby := Parsed(Some("tereby")), dep := Parsed(Some("someDep"))],
                 NoLinks);
    assert dep == tereby + ["node_modules", "someDep"];
    assert Dirname(dep + ["Terebyfile.mjs"]) == dep;
    assert Dirname(dep) == nested && Dirname(nested) == tereby;
    // The dependency directory: nothing installed, and a foreign manifest.
    assert |dep + ExpectedCli| != |tereby + DistCli|;
    assert (dep + ExpectedCli)[|dep + ExpectedCli| - 1] != "Terebyfile.mjs";
    assert dep != root && dep != tereby;
    assert ProbeDir(fs, dep) == Miss;
    // node_modules of the checkout: nothing installed, no manifest.
    assert |nested + ExpectedCli| != |tereby + DistCli|;
    assert |nested + ExpectedCli| != |dep + ["Terebyfile.mjs"]|;
    assert nested != root && nested != tereby && nested != dep;
    assert ProbeDir(fs, nested) == Miss;
    // The checkout itself: its manifest self-resolves.
    assert |tereby + ExpectedCli| != |tereby + DistCli|;
    assert |tereby + ExpectedCli| != |dep + ["Terebyfile.mjs"]|;
    assert ProbeDir(fs, tereby) == Hit(tereby + DistCli);
    assert FindUp(fs, tereby) == Hit(tereby + DistCli);
    assert FindUp(fs, nested) == FindUp(fs, tereby);
    assert FindUp(fs, dep) == FindUp(fs, nested);
  }
}

=== FILE: results.dfy ===
/** Failure-carrying values: the model's stand-ins for `undefined` and for
    exceptions that propagate out of an operation. */
module Results {

  /** A value that may be absent (JavaScript's `undefined`). */
  datatype Option<+T> = None | Some(value: T)

  /** Either a value or the error an operation throws. */
  datatype Result<+T, +E> = Ok(value: T) | Err(error: E)
}

=== FILE: selection.dfy ===
/** Turning the task names given on the command line into tasks
    (`selectTasks` of src/cli/index.ts). */
module Selection {
  import opened Results
  import opened Paths
  import opened Errors
  import opened Levenshtein
  import opened Terebyfile

  /** The error for no task names and no default task. The displayed
      Terebyfile path appears verbatim after the 39-character lead-in. */
  function NoDefaultMessage(shown: string): (r: string)
    ensures |r| == 39 + |shown| + 29
    ensures r[..39] == "No default task has been exported from "
    ensures r[39..39 + |shown|] == shown
    ensures r[39 + |shown|..] == "; please specify a task name."
  {
    var r := "No default task has been exported from " + shown + "; please specify a task name.";
    assert r[39..39 + |shown|] == shown;
    r
  }

  /** The error for an unknown task name. The name follows the 6-character
      `Task "`, and the displayed path follows the name and the 41-character
      middle part. A full stop follows the path. A suggestion then adds
      ` Did you mean "`, the candidate and `"?`. */
  function UnknownTaskMessage(name: string, shown: string, suggestion: Option<string>): (r: string)
    ensures |r| > 6 + |name| + 41 + |shown|
    ensures r[..6] == "Task \""
    ensures r[6..6 + |name|] == name
    ensures r[6 + |name|..6 + |name| + 41] == "\" does not exist or is not exported from "
    ensures r[6 + |name| + 41..6 + |name| + 41 + |shown|] == shown
    ensures r[6 + |name| + 41 + |shown|] == '.'
    ensures suggestion.None? ==> |r| == 6 + |name| + 41 + |shown| + 1
    ensures suggestion.Some? ==>
              var end := 6 + |name| + 41 + |shown| + 1;
              |r| == end + 15 + |suggestion.value| + 2 &&
              r[end..end + 15] == " Did you mean \"" &&
              r[end + 15..|r| - 2] == suggestion.value &&
              r[|r| - 2..] == "\"?"
  {
    var lead, middle := "Task \"", "\" does not exist or is not exported from ";
    var plain := lead + name + middle + shown + ".";
    assert plain[..6] == lead && plain[6..6 + |name|] == name;
    assert plain[6 + |name|..6 + |name| + 41] == middle;
    assert plain[6 + |name| + 41..6 + |name| + 41 + |shown|] == shown;
    match suggestion
    case None => plain
    case Some(candidate) =>
      var opening := " Did you mean \"";
      var tail := opening + candidate + "\"?";
      assert tail[..15] == opening && tail[15..|tail| - 2] == candidate && tail[|tail| - 2..] == "\"?";
      var r := plain + tail;
      assert r[..|plain|] == plain && r[|plain|..] == tail;
      r
  }

  /** A suggestion only extends the plain unknown-task message. */
  lemma SuggestionOnlyAppends(name: string, shown: string, candidate: string)
    ensures var plain := UnknownTaskMessage(name, shown, None);
            UnknownTaskMessage(name, shown, Some(candidate))[..|plain|] == plain
  {
    var plain := UnknownTaskMessage(name, shown, None);
    var r := UnknownTaskMessage(name, shown, Some(candidate));
    assert r == plain + (" Did you mean \"" + candidate + "\"?");
  }

  /** Whether a candidate at distance `d` is close enough to `name` to be
      suggested, decided in integers. */
  function CloseEnough(name: string, d: nat): (b: bool)
    // Exactly the source's threshold, read in exact arithmetic: the distance is under 0.4 times the name's length.
    ensures b <==> (d as real) < (|name| as real) * 0.4
    // Hence nothing is close to the empty name, and a name of at most two characters admits only distance 0.
    ensures b ==> |name| > 0 && (|name| <= 2 ==> d == 0)
  {
    5 * d < 2 * |name|
  }

  /** The "did you mean" candidate for an unknown `name`: the first of
      `known` at minimal edit distance, if that distance is close enough.
      A suggestion exists exactly when some known name is close enough. */
  function Suggestion(name: string, known: seq<string>): (r: Option<string>)
    requires |known| > 0
    ensures r.Some? <==> exists k :: 0 <= k < |known| && CloseEnough(name, Distance(name, known[k]))
    ensures r.Some? ==> r.value in known && CloseEnough(name, Distance(name, r.value))
    ensures r.Some? ==> forall k :: 0 <= k < |known| ==> Distance(name, r.value) <= Distance(name, known[k])
    ensures r.Some? ==>
              exists i :: 0 <= i < |known| && known[i] == r.value &&
                (forall j :: 0 <= j < i ==> Distance(name, known[j]) > Distance(name, r.value))
  {
    var candidate := known[ClosestIndex(name, known)];
    if CloseEnough(name, Distance(name, candidate)) then Some(candidate) else None
  }

  /** The error for the unknown name `name`. */
  function UnknownTask(tf: LoadedTerebyfile, name: string, shown: string): Thrown {
    UserError(UnknownTaskMessage(name, shown, Suggestion(name, tf.names)))
  }

  /** Looks each name up in turn. The first unknown name aborts the lookup
      and is returned as the error. */
  function LookUpAll(tf: LoadedTerebyfile, names: seq<string>): (r: Result<seq<Task>, string>)
    ensures r.Ok? <==> forall i :: 0 <= i < |names| ==> names[i] in tf.tasks
    ensures r.Ok? ==> |r.value| == |names|
    ensures r.Ok? ==> forall i :: 0 <= i < |names| ==> r.value[i] == tf.tasks[names[i]]
    ensures r.Err? ==>
              exists k :: 0 <= k < |names| && names[k] !in tf.tasks &&
                (forall j :: 0 <= j < k ==> names[j] in tf.tasks) && r.error == names[k]
    decreases |names|
  {
    if |names| == 0 then Ok([])
    else if names[0] !in tf.tasks then Err(names[0])
    else
      var later := names[1..];
      assert forall i :: 0 < i < |names| ==> names[i] == later[i - 1];
      match LookUpAll(tf, later)
      case Ok(rest) =>
        var ts := [tf.tasks[names[0]]] + rest;
        assert forall i :: 0 < i < |names| ==> ts[i] == rest[i - 1];
        Ok(ts)
      case Err(name) => Err(name)
  }

  /** `selectTasks(d, terebyfile, terebyfilePath, taskNames)`, with
      `d.simplifyPath` as `simplify`. */
  function SelectTasks(simplify: Path -> string, tf: LoadedTerebyfile, path: Path, names: seq<string>)
    : (r: Result<seq<Task>, Thrown>)
    ensures |names| == 0 && tf.defaultTask.Some? ==> r == Ok([tf.defaultTask.value])
    ensures |names| == 0 && tf.defaultTask.None? ==>
              r == Err(UserError(NoDefaultMessage(simplify(path))))
    ensures |names| > 0 ==> (r.Ok? <==> forall i :: 0 <= i < |names| ==> names[i] in tf.tasks)
    ensures |names| > 0 && r.Ok? ==> |r.value| == |names|
    ensures |names| > 0 && r.Ok? ==>
              forall i :: 0 <= i < |names| ==> r.value[i] == tf.tasks[names[i]]
    ensures |names| > 0 && r.Err? ==>
              exists k :: 0 <= k < |names| && names[k] !in tf.tasks &&
                (forall j :: 0 <= j < k ==> names[j] in tf.tasks) &&
                r.error == UnknownTask(tf, names[k], simplify(path))
  {
    if |names| == 0 then
      match tf.defaultTask
      case Some(t) => Ok([t])
      case None => Err(UserError(NoDefaultMessage(simplify(path))))
    else
      match LookUpAll(tf, names)
      case Ok(tasks) => Ok(tasks)
      case Err(name) => Err(UnknownTask(tf, name, simplify(path)))
  }

  /** Selected tasks carry the requested names, in the requested order. */
  lemma SelectedNamesAreRequested(simplify: Path -> string, tf: LoadedTerebyfile, path: Path, names: seq<string>)
    requires |names| > 0 && SelectTasks(simplify, tf, path, names).Ok?
    ensures var ts := SelectTasks(simplify, tf, path, names).value;
            |ts| == |names| && forall i :: 0 <= i < |names| ==> ts[i].name == names[i]
  {
  }

  /** Any suggestion names one of the exported tasks. */
  lemma SuggestionIsExported(tf: LoadedTerebyfile, name: string)
    ensures var s := Suggestion(name, tf.names); s.Some? ==> s.value in tf.tasks
  {
  }
}

=== FILE: selection_scenarios.dfy ===
/** The selection cases exercised by the command-line tests. The fixture
    Terebyfile those tests load is not part of this model. It is assumed to
    export exactly `buildCompiler` and `runSomeProgram`, in that order, with
    the latter also as the default task. These are the names and the default
    that the tests' expected results mention. */
module SelectionScenarios {
  import opened Results
  import opened Paths
  import opened Errors
  import opened Levenshtein
  import opened Terebyfile
  import opened Selection

  function Fixture(): (tf: LoadedTerebyfile)
    ensures tf.names == ["buildCompiler", "runSomeProgram"]
  {
    Terebyfile(["buildCompiler", "runSomeProgram"],
               map["buildCompiler" := Task(0, "buildCompiler"), "runSomeProgram" := Task(1, "runSomeProgram")],
               Some(Task(1, "runSomeProgram")))
  }

  /** No names selects the default task. */
  lemma SelectsDefault(simplify: Path -> string, path: Path)
    ensures SelectTasks(simplify, Fixture(), path, []) == Ok([Task(1, "runSomeProgram")])
  {
  }

  /** Several known names select their tasks in the order given. */
  lemma SelectsInOrder(simplify: Path -> string, path: Path)
    ensures SelectTasks(simplify, Fixture(), path, ["runSomeProgram", "buildCompiler"])
            == Ok([Task(1, "runSomeProgram"), Task(0, "buildCompiler")])
  {
    var tf, ns := Fixture(), ["runSomeProgram", "buildCompiler"];
    assert ns[0] in tf.tasks && ns[1] in tf.tasks;
    var r := SelectTasks(simplify, tf, path, ns);
    assert r.Ok? && |r.value| == 2;
    assert r.value[0] == Task(1, "runSomeProgram") && r.value[1] == Task(0, "buildCompiler");
    assert r.value == [Task(1, "runSomeProgram"), Task(0, "buildCompiler")];
  }

  /** `oops` is at least nine edits from either task name. */
  lemma FarDistances()
    ensures Distance("oops", "buildCompiler") >= 9
    ensures Distance("oops", "runSomeProgram") >= 10
  {
    DistanceAtLeastLengthGap("oops", "buildCompiler");
    DistanceAtLeastLengthGap("oops", "runSomeProgram");
  }

  /** Nothing is suggested for `oops`. */
  lemma SuggestsNothing()
    ensures Suggestion("oops", ["buildCompiler", "runSomeProgram"]) == None
  {
    FarDistances();
  }

  /** A name far from every task gets the plain not-found message. */
  lemma UnknownWithoutSuggestion(simplify: Path -> string, path: Path)
    ensures SelectTasks(simplify, Fixture(), path, ["oops"])
            == Err(UserError(UnknownTaskMessage("oops", simplify(path), None)))
  {
    var tf, ns, shown := Fixture(), ["oops"], simplify(path);
    SuggestsNothing();
    assert ns[0] !in tf.tasks;
    assert LookUpAll(tf, ns) == Err("oops");
  }

  /** `buildcompiler` is one substitution from `buildCompiler`, and no
      nearer to `runSomeProgram`. */
  lemma MisspeltDistances()
    ensures Distance("buildcompiler", "buildCompiler") <= 1
    ensures Distance("buildcompiler", "runSomeProgram") >= 1
  {
    DistanceOneMismatch("buildcompiler", "buildCompiler", 5);
    DistanceAtLeastLengthGap("buildcompiler", "runSomeProgram");
  }

  /** The suggestion for `buildcompiler` is `buildCompiler`. */
  lemma SuggestsBuildCompiler()
    ensures Suggestion("buildcompiler", ["buildCompiler", "runSomeProgram"]) == Some("buildCompiler")
  {
    MisspeltDistances();
    assert ClosestIndex("buildcompiler", ["buildCompiler", "runSomeProgram"]) == 0;
  }

  /** A name one letter's case away from a task is answered with that task. */
  lemma UnknownWithSuggestion(simplify: Path -> string, path: Path)
    ensures SelectTasks(simplify, Fixture(), path, ["buildcompiler"])
            == Err(UserError(UnknownTaskMessage("buildcompiler", simplify(path), Some("buildCompiler"))))
  {
    var tf, ns, shown := Fixture(), ["buildcompiler"], simplify(path);
    SuggestsBuildCompiler();
    assert ns[0] !in tf.tasks;
    assert LookUpAll(tf, ns) == Err("buildcompiler");
  }

  /** With no default task, no names is an error naming the Terebyfile. */
  lemma NoDefaultTask(simplify: Path -> string, path: Path)
    ensures var tf := Terebyfile(["a"], map["a" := Task(0, "a")], None);
            SelectTasks(simplify, tf, path, [])
            == Err(UserError(NoDefaultMessage(simplify(path))))
  {
  }
}

=== FILE: terebyfile.dfy ===
/** A loaded Terebyfile: its exported tasks by name, in export order, and
    the optional default task. */
module Terebyfile {
  import opened Results

  /** A task as the command line sees it: an identity (object identity in
      the program) and its declared name. */
  datatype Task = Task(id: nat, name: string)

  /** `names` is the key order of the task map (the order `keys()` yields). */
  datatype Terebyfile = Terebyfile(names: seq<string>, tasks: map<string, Task>, defaultTask: Option<Task>)
  {
    /** What loading guarantees: at least one task, each name once, every
        name a key, and every task filed under its own name. */
    predicate WellFormed() {
      && |names| > 0
      && (forall i, j :: 0 <= i < j < |names| ==> names[i] != names[j])
      && (forall k :: k in tasks ==> k in names)
      && (forall i :: 0 <= i < |names| ==> names[i] in tasks)
      && (forall k :: k in tasks ==> tasks[k].name == k)
    }

    /** `tasks.values()`, in key order. */
    function Values(): (r: seq<Task>)
      requires WellFormed()
      ensures |r| == |names|
      ensures forall i :: 0 <= i < |names| ==> r[i] == tasks[names[i]]
      // Every task of the map is listed, and none twice.
      ensures forall k :: k in tasks ==> tasks[k] in r
      ensures forall i, j :: 0 <= i < j < |r| ==> r[i].name != r[j].name
    {
      seq(|names|, i requires 0 <= i < |names| => tasks[names[i]])
    }
  }

  type LoadedTerebyfile = tf: Terebyfile | tf.WellFormed()
    witness Terebyfile(["default"], map["default" := Task(0, "default")], None)
}
